=== FILE: README.md ===
# Account store model

This project models the core of an in-memory account service written in Go:

- `models/account.go`: the `Account` record and its `Validate` rule chain.
- `db/array.go`: a write-once store. It is a fixed array of `MaxAccounts` (1500000) slots indexed directly by account id. Every slot access is guarded by a sharded reader-writer lock.

Modules:

- `Wrappers` (`wrappers.dfy`): `Option` and `Outcome`. `Outcome.Pass` is Go's nil `error`.
- `Models` (`account.dfy`): the `Account`, `Premium` and `Like` datatypes. Go strings are byte strings, so they are `seq<bv8>`. Go `len` counts bytes. `int64`, `int32` and `uint32` are bounded subset types of `int`. Validation errors form an enum with one constructor per rule. `CityTooLong` stays distinct, although the Go code reuses the country message for it. `InterestTooLong` carries the offending interest, as the Go message does. The three status constants are the UTF-8 bytes of the Cyrillic strings.
- `Db` (`array.dfy`): the store as a value `DB(accounts, held)`.
  - `held` is the set of ids whose exclusive hold was taken and never released.
  - Each operation returns a `Run`: `Returned(value, db, calls)`, `Blocked(calls)` or `Panicked(calls)`. `calls` is the list of lock calls made, in order.
  - A call that would wait for a hold nobody will release is `Blocked`.
  - An out-of-range slice index (a Go runtime panic) is `Panicked`.
  - Both `AddUser` as written and a corrected `AddUserChecked` are modelled.
- `Traces` (`traces.dfy`): runs histories of reads and creates against the corrected store. It states the per-slot life cycle (Empty, then Present, never reversed by any store call) over whole histories. It also states exactly-once creation: for an id that starts absent, some valid create wins, at most one create wins, and every other valid create for that id replies already-exists.

`Validate` reports the first broken rule. `Validate(a).Fail?` implies `Broken(a, Validate(a).error)`, and `Validate(a).Pass?` implies that no rule is broken. Together these give "nil iff no rule is violated".

Where the source's comments and code disagree, the model follows the code:

- The field comments give the length caps in unicode characters (models/account.go:9, 13, 18, 30, 33, 44-45). The code measures with `len` (models/account.go:85-101, 111), which counts bytes. For example, a first name of 26 Cyrillic letters is 52 bytes and is rejected, although it has only 26 characters (`Models.NameCapCountsBytes`).
- The birth-date comment (models/account.go:25-27) gives 1999-01-01 as the upper bound. The code (models/account.go:95) uses 1514851199, which is 2018-01-01 23:59:59 UTC.
- The premium comment (models/account.go:48-50) says the start and finish timestamps have a lower bound of 2018-01-01. The code (models/account.go:106) rejects only a period that starts before 2018-01-01 and after its finish. So a premium with start 0 and finish 0 is accepted.

Two defects in the store code are listed under Findings:

- `AddUser` releases its exclusive hold only on the success path (db/array.go:53).
- `GetAccount` bounds-checks its id (db/array.go:36), but `AddUser` does not.

## Model

| member | source | states |
|---|---|---|
| `Models.FirstLongInterest` | models/account.go:110-114 | the scan finds nothing iff every interest is at most 100 bytes; otherwise it finds an over-long interest with every earlier one within the cap |
| `Models.Validate` | models/account.go:81-116 | id 0 is always rejected with the id rule, before any other rule; a failure names a rule the record breaks, and no rule earlier in the switch order is broken; success means no rule is broken; a reported interest is the first over-long one in the list |
| `Models.IsValid` | models/account.go:118-120 | a record is present iff `Validate` would not fail on its id; a validated record is present; the zero account is absent |
| `Models.AcceptedIffWithinLimits` | models/account.go:82-115 | `Validate` accepts exactly the records whose id is non-zero and whose byte lengths are within the caps (email 100; first name, last name, country and city 50; phone 16; each interest 100), whose gender and status come from their closed sets, whose dates lie in their closed ranges, and whose premium rule holds |
| `Models.FirstBrokenRuleIsReported` | models/account.go:82-108 | any rule broken while every earlier rule holds is the one reported: a record is rejected by the first failing case in switch order; among interests, the first over-long one in the list is the one reported |
| `Models.NameCapCountsBytes` | models/account.go:87-88 | the caps count bytes: changing an accepted record's first name to 26 Cyrillic letters (52 bytes) makes it rejected with the first-name rule |
| `Models.BirthDateRangeIsClosed` | models/account.go:95-97 | with every other field accepted, a birth date is accepted iff it lies in [-1262304000, 1514851199], bounds included; otherwise the birth-date rule is reported |
| `Models.JoinedRangeIsClosed` | models/account.go:102-103 | with every other field accepted, a join date is accepted iff it lies in [1293840000, 1514851199], bounds included; otherwise the joined rule is reported |
| `Models.GenderIsClosedSet` | models/account.go:93-94 | with every other field accepted, a gender is accepted iff it is exactly "m" or "f"; otherwise the gender rule is reported |
| `Models.StatusIsClosedSet` | models/account.go:104-105 | with every other field accepted, a status is accepted iff it is one of the three status strings; otherwise the status rule is reported |
| `Models.PremiumRejectsOnlyBackwardPeriods` | models/account.go:106-107 | the premium rule is reported iff the period starts before 2018-01-01 and after its finish, and every earlier rule passes; a start at or after 2018-01-01, or a start not after the finish, never causes this rejection |
| `Db.New` | db/array.go:21-30 | the new store has exactly `MaxAccounts` slots, every one holding the zero account and so none of them present, and no hold outstanding |
| `Db.GetAccount` | db/array.go:35-42 | an id at or past capacity returns the zero account with no lock call; an in-range id returns the slot's record, with exactly the calls `RLock(id)` then `RUnlock(id)` (a shared hold released on return); the store is unchanged; a leftover exclusive hold on the id makes the read stop at `RLock(id)` forever |
| `Db.AddUser` | db/array.go:44-55 | as written: a validation failure is returned unchanged, with no lock call and no change; on success the slot holds the record, no other slot changes and the hold is released; on already-exists the store is unchanged but the exclusive hold stays taken; a valid id at or past capacity panics; present slots never change |
| `Db.AddUserChecked` | db/array.go:44-55 | corrected: never panics; an id past capacity is rejected with no lock call; every returning call leaves the lock table as it was, with balanced lock calls; it succeeds iff the slot was absent and reports already-exists iff it was present; failures change nothing; present slots never change |
| `Db.CheckedAgreesWithAsWritten` | db/array.go:44-55 | for an in-range id with no leftover hold, the corrected create reports the same result and leaves the same slots as the code as written; only on already-exists do the two differ, and only in the lock calls and the holds left |
| `Db.ReadAfterCreate` | db/array.go:35-54 | after a successful create, reading the same id returns the created record under a balanced shared hold |
| `Db.SecondCreateFails` | db/array.go:48-50 | a second valid create for an id already present fails with already-exists and the first record stays readable |
| `Db.AlreadyExistsLeaksHold` | db/array.go:48-50 | as written, the already-exists path leaves an unbalanced exclusive hold on the id, and the next read of that id waits forever |
| `Db.ValidIdPastCapacityPanics` | db/array.go:44-49 | a record with id 1500000 passes `Validate`; the as-written create panics on the unchecked index, while the corrected create rejects it with no lock call |
| `Traces.Step` | db/array.go:35-54 | one read or corrected create keeps the slot count and the outstanding holds, never blocks when no hold is outstanding, and never changes a present slot |
| `Traces.Exec` | db/array.go:35-54 | a history produces one reply per call; starting with no outstanding hold, it never blocks and ends with none |
| `Traces.WriteOnce` | db/array.go:48-52 | a present record is unchanged by any later history of reads and creates |
| `Traces.NoWinOnPresent` | db/array.go:48-51 | once an id is present, no later create for it succeeds |
| `Traces.AtMostOneWinner` | db/array.go:44-54 | among all the creates for one id in a history, at most one succeeds |
| `Traces.ValidCreateReplies` | db/array.go:44-55 | with no hold outstanding, a valid create for an in-range id replies either success or already-exists, never anything else |
| `Traces.SomeCreateWins` | db/array.go:48-54 | if an id starts absent and the history holds a valid create for it, then some create for that id at or before that one succeeds |
| `Traces.LosersGetAlreadyExists` | db/array.go:48-51 | once a create for an id has won, every other valid create for that id in the history, before or after it, replies already-exists |
| `Traces.WinnerIsStored` | db/array.go:49-52 | at the end of a history, the slot of a successfully created id holds the winning create's record |
| `Traces.ReadsSeeWinner` | db/array.go:35-54 | every read of an id after its winning create returns that create's record |
| `Traces.ReadAfterPresent` | db/array.go:39-41 | a read of a present id anywhere in a later history returns that record |

## Findings

| source | as written | input that shows it | evidently intended | confidence | as-written member | corrected member |
|---|---|---|---|---|---|---|
| db/array.go:48-50 | the already-exists branch returns after `Lock(v.Id)` without `Unlock` | a store whose slot `v.Id` is present, then `AddUser(v)` for a valid `v`; the next `GetAccount(v.Id)` waits forever | release the exclusive hold on every return path | high (not executed) | `Db.AlreadyExistsLeaksHold` | `Db.AddUserChecked` |
| db/array.go:44-49 | `AddUser` indexes `accounts[v.Id]` with no bound check, and `Validate` accepts any non-zero `uint32` id | `Db.FarAccount` (id 1500000, all other fields valid) passes `Validate`, takes the exclusive hold, and then panics | reject ids at or past `MaxAccounts`, as `GetAccount` does | high (not executed) | `Db.ValidIdPastCapacityPanics` | `Db.AddUserChecked` |

The corrected `AddUserChecked` reports an out-of-range id as `IdOutOfRange`. The source has no such error, so this name belongs to the model. `Traces` runs its histories against `AddUserChecked`.

## Left out

- `importer/unziper.go` and `importer/importer.go`: archive I/O, flags, logging and a wait group around an unfinished processing loop. None of it is store logic.
- The `ShardedLock` implementation and its id-to-shard partition are not part of this model. Holds are keyed by the id passed to the lock. With real shards, a leaked hold also blocks every other id in the same shard. The model only shows the blocking on the leaking id itself. `DefaultShardsCount` (509) sizes the lock table at db/array.go:27. The model declares it but does not use it, because the shard partition is not modelled.
- Real concurrency: reader/writer interleavings inside a call, contention and parallel speed-up are not modelled. Each call is atomic. Concurrent callers are modelled by the order of calls in a `Traces` history.
- JSON tags and easyjson serialisation: the generated code is not part of the source.
- `Likes` is carried as opaque data, because nothing validates it.
- `Interests` and `Likes` are Go slices. `AddUser` stores, and `GetAccount` returns, a copy of the struct (db/array.go:52, :41). That copy's slices share their backing arrays with the caller's. The model treats records as immutable values. So write-once covers the store's own calls, not a caller writing through a shared slice.
- Error message text: errors are an enum of rule identities.
- `GetId` is a plain field read. It is modelled as `Account.GetId`, and there is nothing to state about it beyond its body.
- `Version` (the string "array") is a label with no behaviour.

=== FILE: account.dfy ===
/** The account record and its field-level validation (package `models`). */
module Models {
  import opened Wrappers

  /** Go strings are byte strings; `len` counts bytes, not characters. */
  type Byte = bv8
  type Bytes = seq<Byte>

  type Int32 = x: int | -0x8000_0000 <= x < 0x8000_0000
  type Int64 = x: int | -0x8000_0000_0000_0000 <= x < 0x8000_0000_0000_0000
  type Uint32 = x: int | 0 <= x < 0x1_0000_0000

  datatype Premium = Premium(start: Int64, finish: Int64)

  /** A like is carried as opaque data: nothing validates it. */
  datatype Like = Like(id: Int32, time: Int64)

  datatype Account = Account(
    email: Bytes,
    firstName: Bytes,
    lastName: Bytes,
    phone: Bytes,
    gender: Bytes,
    birthDate: Int64,
    country: Bytes,
    city: Bytes,
    joined: Int64,
    status: Bytes,
    interests: seq<Bytes>,
    premium: Premium,
    likes: seq<Like>,
    id: Uint32)
  {
    function GetId(): Uint32 {
      id
    }
  }

  /** Go's zero value of `Account`: the "absent" sentinel of every unwritten slot. */
  const ZeroAccount: Account :=
    Account([], [], [], [], [], 0, [], [], 0, [], [], Premium(0, 0), [], 0)

  // Byte-length caps.
  const MaxEmailLen := 100
  const MaxNameLen := 50
  const MaxPhoneLen := 16
  const MaxPlaceLen := 50
  const MaxInterestLen := 100

  // Closed timestamp ranges (seconds since the UNIX epoch).
  const BirthDateMin := -1262304000   // 1930-01-01 00:00:00 UTC
  const BirthDateMax := 1514851199    // 2018-01-01 23:59:59 UTC
  const JoinedMin := 1293840000       // 2011-01-01 00:00:00 UTC
  const JoinedMax := 1514851199
  const PremiumEpoch := 1514764800    // 2018-01-01 00:00:00 UTC

  // The two genders, "m" and "f".
  const Male: Bytes := [0x6D]
  const Female: Bytes := [0x66]

  // The three statuses, as UTF-8 bytes.
  /** "свободны" */
  const StatusFree: Bytes :=
    [0xD1, 0x81, 0xD0, 0xB2, 0xD0, 0xBE, 0xD0, 0xB1, 0xD0, 0xBE, 0xD0, 0xB4, 0xD0, 0xBD, 0xD1, 0x8B]
  /** "заняты" */
  const StatusTaken: Bytes :=
    [0xD0, 0xB7, 0xD0, 0xB0, 0xD0, 0xBD, 0xD1, 0x8F, 0xD1, 0x82, 0xD1, 0x8B]
  /** "всё сложно" */
  const StatusComplicated: Bytes :=
    [0xD0, 0xB2, 0xD1, 0x81, 0xD1, 0x91, 0x20, 0xD1, 0x81, 0xD0, 0xBB, 0xD0, 0xBE, 0xD0, 0xB6, 0xD0, 0xBD, 0xD0, 0xBE]

  /** One constructor per rule of `Validate`; the Go messages are not modelled.
      `CityTooLong` is its own rule even though the source reuses the country
      message for it. */
  datatype ValidationError =
    | IdZero
    | EmailTooLong
    | FirstNameTooLong
    | LastNameTooLong
    | PhoneTooLong
    | InvalidGender
    | InvalidBirthDate
    | CountryTooLong
    | CityTooLong
    | InvalidJoined
    | InvalidStatus
    | InvalidPremium
    | InterestTooLong(interest: Bytes)

  /** Position of each rule in the order `Validate` tries them. */
  function Rank(e: ValidationError): nat {
    match e
    case IdZero => 0
    case EmailTooLong => 1
    case FirstNameTooLong => 2
    case LastNameTooLong => 3
    case PhoneTooLong => 4
    case InvalidGender => 5
    case InvalidBirthDate => 6
    case CountryTooLong => 7
    case CityTooLong => 8
    case InvalidJoined => 9
    case InvalidStatus => 10
    case InvalidPremium => 11
    case InterestTooLong(_) => 12
  }

  /** Rule `e` is violated by `a`, regardless of any other rule. */
  predicate Broken(a: Account, e: ValidationError) {
    match e
    case IdZero => a.id == 0
    case EmailTooLong => |a.email| > MaxEmailLen
    case FirstNameTooLong => |a.firstName| > MaxNameLen
    case LastNameTooLong => |a.lastName| > MaxNameLen
    case PhoneTooLong => |a.phone| > MaxPhoneLen
    case InvalidGender => a.gender != Male && a.gender != Female
    case InvalidBirthDate => a.birthDate < BirthDateMin || a.birthDate > BirthDateMax
    case CountryTooLong => |a.country| > MaxPlaceLen
    case CityTooLong => |a.city| > MaxPlaceLen
    case InvalidJoined => a.joined < JoinedMin || a.joined > JoinedMax
    case InvalidStatus => a.status != StatusFree && a.status != StatusTaken && a.status != StatusComplicated
    case InvalidPremium => a.premium.start < PremiumEpoch && a.premium.start > a.premium.finish
    case InterestTooLong(s) => s in a.interests && |s| > MaxInterestLen
  }

  /** Every field within the documented limits, stated field by field. */
  predicate WithinLimits(a: Account) {
    && a.id != 0
    && |a.email| <= MaxEmailLen
    && |a.firstName| <= MaxNameLen
    && |a.lastName| <= MaxNameLen
    && |a.phone| <= MaxPhoneLen
    && a.gender in {Male, Female}
    && BirthDateMin <= a.birthDate <= BirthDateMax
    && |a.country| <= MaxPlaceLen
    && |a.city| <= MaxPlaceLen
    && JoinedMin <= a.joined <= JoinedMax
    && a.status in {StatusFree, StatusTaken, StatusComplicated}
    && (a.premium.start >= PremiumEpoch || a.premium.start <= a.premium.finish)
    && forall i :: 0 <= i < |a.interests| ==> |a.interests[i]| <= MaxInterestLen
  }

  /** Index of the first interest longer than the cap, scanning in order. */
  function FirstLongInterest(xs: seq<Bytes>): (r: Option<nat>)
    ensures r.None? <==> forall i :: 0 <= i < |xs| ==> |xs[i]| <= MaxInterestLen
    ensures r.Some? ==> r.value < |xs| && |xs[r.value]| > MaxInterestLen
    ensures r.Some? ==> forall j :: 0 <= j < r.value ==> |xs[j]| <= MaxInterestLen
  {
    if xs == [] then None
    else if |xs[0]| > MaxInterestLen then Some(0)
    else match FirstLongInterest(xs[1..])
      case None => None
      case Some(k) => Some(k + 1)
  }

  /** The ordered rule chain: the first violated rule is reported, and the
      interests are scanned only once every other rule has passed. */
  function Validate(a: Account): (r: Outcome<ValidationError>)
    ensures a.id == 0 ==> r == Fail(IdZero)
    ensures r.Fail? ==> Broken(a, r.error)
    ensures r.Pass? ==> forall e :: !Broken(a, e)
    ensures r.Fail? ==> forall e :: Rank(e) < Rank(r.error) ==> !Broken(a, e)
    ensures r.Fail? && r.error.InterestTooLong? ==>
              exists k :: 0 <= k < |a.interests| && a.interests[k] == r.error.interest &&
                          forall j :: 0 <= j < k ==> |a.interests[j]| <= MaxInterestLen
  {
    if a.id == 0 then Fail(IdZero)
    else if |a.email| > MaxEmailLen then Fail(EmailTooLong)
    else if |a.firstName| > MaxNameLen then Fail(FirstNameTooLong)
    else if |a.lastName| > MaxNameLen then Fail(LastNameTooLong)
    else if |a.phone| > MaxPhoneLen then Fail(PhoneTooLong)
    else if a.gender != Male && a.gender != Female then Fail(InvalidGender)
    else if a.birthDate < BirthDateMin || a.birthDate > BirthDateMax then Fail(InvalidBirthDate)
    else if |a.country| > MaxPlaceLen then Fail(CountryTooLong)
    else if |a.city| > MaxPlaceLen then Fail(CityTooLong)
    else if a.joined < JoinedMin || a.joined > JoinedMax then Fail(InvalidJoined)
    else if a.status != StatusFree && a.status != StatusTaken && a.status != StatusComplicated then Fail(InvalidStatus)
    else if a.premium.start < PremiumEpoch && a.premium.start > a.premium.finish then Fail(InvalidPremium)
    else match FirstLongInterest(a.interests)
      case None => Pass
      case Some(k) => Fail(InterestTooLong(a.interests[k]))
  }

  /** Presence: a record is present iff its id is non-zero. */
  function IsValid(a: Account): (r: bool)
    ensures Validate(a).Pass? ==> r
    ensures !r <==> Validate(a) == Fail(IdZero)
    ensures a == ZeroAccount ==> !r
  {
    a.id != 0
  }

  /** `Validate` accepts exactly the records that are within every limit. */
  lemma AcceptedIffWithinLimits(a: Account)
    ensures Validate(a).Pass? <==> WithinLimits(a)
  {
  }

  /** The reported rule is THE first broken one: any rule that is broken
      while every earlier rule holds is exactly what `Validate` reports
      (for interests, any over-long one that comes first in the list). */
  lemma FirstBrokenRuleIsReported(a: Account, e: ValidationError)
    requires Broken(a, e)
    requires forall e' :: Rank(e') < Rank(e) ==> !Broken(a, e')
    ensures Validate(a).Fail?
    ensures Rank(Validate(a).error) == Rank(e)
    ensures !e.InterestTooLong? ==> Validate(a) == Fail(e)
    ensures e.InterestTooLong? &&
            (exists k :: 0 <= k < |a.interests| && a.interests[k] == e.interest &&
                         forall j :: 0 <= j < k ==> |a.interests[j]| <= MaxInterestLen) ==>
              Validate(a) == Fail(e)
  {
  }

  /** Twenty-six Cyrillic letters "а": 26 characters but 52 bytes in UTF-8. */
  const CyrillicName: Bytes := seq(52, i => if i % 2 == 0 then 0xD0 else 0xB0)

  /** The caps count bytes, not characters: a first name of 26 Cyrillic
      letters is within 50 characters yet is rejected. */
  lemma NameCapCountsBytes(a: Account)
    requires Validate(a).Pass?
    ensures |CyrillicName| == 2 * 26 > MaxNameLen
    ensures Validate(a.(firstName := CyrillicName)) == Fail(FirstNameTooLong)
  {
  }

  /** Changing the birth date of an accepted record: accepted iff the new
      date lies in the closed range, the bounds themselves included. */
  lemma BirthDateRangeIsClosed(a: Account, t: Int64)
    requires Validate(a).Pass?
    ensures Validate(a.(birthDate := t)).Pass? <==> BirthDateMin <= t <= BirthDateMax
    ensures !(BirthDateMin <= t <= BirthDateMax) ==> Validate(a.(birthDate := t)) == Fail(InvalidBirthDate)
  {
  }

  /** Changing the join date of an accepted record: accepted iff the new
      date lies in the closed range, the bounds themselves included. */
  lemma JoinedRangeIsClosed(a: Account, t: Int64)
    requires Validate(a).Pass?
    ensures Validate(a.(joined := t)).Pass? <==> JoinedMin <= t <= JoinedMax
    ensures !(JoinedMin <= t <= JoinedMax) ==> Validate(a.(joined := t)) == Fail(InvalidJoined)
  {
  }

  /** Changing the gender of an accepted record: accepted iff it is "m" or "f". */
  lemma GenderIsClosedSet(a: Account, g: Bytes)
    requires Validate(a).Pass?
    ensures Validate(a.(gender := g)).Pass? <==> g == Male || g == Female
    ensures g != Male && g != Female ==> Validate(a.(gender := g)) == Fail(InvalidGender)
  {
  }

  /** Changing the status of an accepted record: accepted iff it is one of the three statuses. */
  lemma StatusIsClosedSet(a: Account, s: Bytes)
    requires Validate(a).Pass?
    ensures Validate(a.(status := s)).Pass? <==> s in {StatusFree, StatusTaken, StatusComplicated}
    ensures s !in {StatusFree, StatusTaken, StatusComplicated} ==> Validate(a.(status := s)) == Fail(InvalidStatus)
  {
  }

  /** The premium rule rejects only a period that starts before 2018 and
      ends before it starts; it is reported only when all earlier rules pass. */
  lemma PremiumRejectsOnlyBackwardPeriods(a: Account)
    ensures Validate(a) == Fail(InvalidPremium) <==>
              (a.premium.start < PremiumEpoch && a.premium.start > a.premium.finish &&
               forall e :: Rank(e) < Rank(InvalidPremium) ==> !Broken(a, e))
  {
  }
}

=== FILE: array.dfy ===
/** The write-once account store (package `db`, the "array" variant): a
    fixed array of `MaxAccounts` slots indexed directly by account id, with
    a sharded reader-writer lock around every slot access.

    The lock table's own implementation and its id-to-shard partition are
    not part of this model. The lock is observed through the calls the store
    makes on it (`LockCall`) and through `held`, the ids whose exclusive hold
    was taken and never released. Execution is sequential: a call that would
    wait for a hold nobody will release is modelled as `Blocked`, and an
    out-of-range slice index (a Go runtime panic) as `Panicked`. */
module Db {
  import opened Wrappers
  import opened Models

  const MaxAccounts := 1500000
  const DefaultShardsCount := 509

  datatype LockCall = RLock(id: Uint32) | RUnlock(id: Uint32) | Lock(id: Uint32) | Unlock(id: Uint32)

  /** `acq` is an acquisition and `rel` releases the same hold. */
  predicate Releases(acq: LockCall, rel: LockCall) {
    || (acq.RLock? && rel == RUnlock(acq.id))
    || (acq.Lock? && rel == Unlock(acq.id))
  }

  /** Every acquisition is released by the very next call. */
  predicate Balanced(calls: seq<LockCall>)
    decreases |calls|
  {
    || |calls| == 0
    || (|calls| >= 2 && Releases(calls[0], calls[1]) && Balanced(calls[2..]))
  }

  /** The store: the slot array and the exclusive holds left outstanding. */
  datatype DB = DB(accounts: seq<Account>, held: set<Uint32>)

  /** The slot array always has exactly `MaxAccounts` slots. */
  predicate Wf(db: DB) {
    |db.accounts| == MaxAccounts
  }

  /** How one store call ends: it returns (with the store afterwards), it
      waits forever on a hold, or it panics. `calls` lists the lock calls it
      made in order. */
  datatype Run<+T> =
    | Returned(value: T, db: DB, calls: seq<LockCall>)
    | Blocked(calls: seq<LockCall>)
    | Panicked(calls: seq<LockCall>)

  datatype AddError =
    | Invalid(reason: ValidationError)
    | AlreadyExists
    | IdOutOfRange   // only returned by the corrected `AddUserChecked`

  /** A freshly constructed store: every slot holds the zero account. */
  function New(): (db: DB)
    ensures Wf(db)
    ensures forall i :: 0 <= i < |db.accounts| ==> db.accounts[i] == ZeroAccount
    ensures forall i :: 0 <= i < |db.accounts| ==> !IsValid(db.accounts[i])
    ensures db.held == {}
  {
    DB(seq(MaxAccounts, _ => ZeroAccount), {})
  }

  /** Bounds-checked read under a shared hold released on return. */
  function GetAccount(db: DB, id: Uint32): (r: Run<Account>)
    requires Wf(db)
    ensures r.Returned? ==> r.db == db && Balanced(r.calls)
    ensures id >= MaxAccounts ==> r == Returned(ZeroAccount, db, [])
    ensures id < MaxAccounts && id !in db.held ==> r == Returned(db.accounts[id], db, [RLock(id), RUnlock(id)])
    ensures id < MaxAccounts && id in db.held ==> r == Blocked([RLock(id)])
    ensures !r.Panicked?
  {
    if id >= MaxAccounts then Returned(ZeroAccount, db, [])
    else if id in db.held then Blocked([RLock(id)])
    else Returned(db.accounts[id], db, [RLock(id), RUnlock(id)])
  }

  /** `AddUser` as written: validate, lock, check-and-set. The already-exists
      path returns without unlocking, and the id is used as an index without
      a bounds check. */
  function AddUser(db: DB, v: Account): (r: Run<Outcome<AddError>>)
    requires Wf(db)
    ensures r.Returned? ==> Wf(r.db)
    ensures Validate(v).Fail? ==> r == Returned(Fail(Invalid(Validate(v).error)), db, [])
    ensures r.Returned? && r.value == Pass ==>
              && v.id < MaxAccounts
              && !IsValid(db.accounts[v.id])
              && r.db.accounts == db.accounts[v.id := v]
              && r.db.held == db.held
              && r.calls == [Lock(v.id), Unlock(v.id)]
    ensures r.Returned? && r.value == Fail(AlreadyExists) ==>
              && v.id < MaxAccounts
              && IsValid(db.accounts[v.id])
              && r.db.accounts == db.accounts
              && r.db.held == db.held + {v.id}
              && r.calls == [Lock(v.id)]
    ensures Validate(v).Pass? && v.id !in db.held ==>
              (r.Panicked? <==> v.id >= MaxAccounts)
    ensures r.Returned? ==>
              forall i :: 0 <= i < MaxAccounts && IsValid(db.accounts[i]) ==> r.db.accounts[i] == db.accounts[i]
  {
    match Validate(v)
    case Fail(e) => Returned(Fail(Invalid(e)), db, [])
    case Pass =>
      if v.id in db.held then Blocked([Lock(v.id)])
      else if v.id >= MaxAccounts then Panicked([Lock(v.id)])
      else if IsValid(db.accounts[v.id]) then
        Returned(Fail(AlreadyExists), db.(held := db.held + {v.id}), [Lock(v.id)])
      else
        Returned(Pass, db.(accounts := db.accounts[v.id := v]), [Lock(v.id), Unlock(v.id)])
  }

  /** `AddUser` as evidently intended: an id beyond the slot array is
      rejected before any lock is taken, and the already-exists path releases
      its hold. Every call that returns leaves the lock table as it found it. */
  function AddUserChecked(db: DB, v: Account): (r: Run<Outcome<AddError>>)
    requires Wf(db)
    ensures r.Returned? ==> Wf(r.db) && r.db.held == db.held && Balanced(r.calls)
    ensures !r.Panicked?
    ensures r.Blocked? ==> v.id in db.held
    ensures Validate(v).Fail? ==> r == Returned(Fail(Invalid(Validate(v).error)), db, [])
    ensures Validate(v).Pass? && v.id >= MaxAccounts ==> r == Returned(Fail(IdOutOfRange), db, [])
    ensures r.Returned? && r.value == Pass ==>
              && v.id < MaxAccounts
              && !IsValid(db.accounts[v.id])
              && r.db.accounts == db.accounts[v.id := v]
    ensures Validate(v).Pass? && v.id < MaxAccounts && v.id !in db.held ==>
              && r.Returned?
              && (r.value == Pass <==> !IsValid(db.accounts[v.id]))
              && (r.value == Fail(AlreadyExists) <==> IsValid(db.accounts[v.id]))
    ensures r.Returned? && r.value != Pass ==> r.db == db
    ensures r.Returned? ==>
              forall i :: 0 <= i < MaxAccounts && IsValid(db.accounts[i]) ==> r.db.accounts[i] == db.accounts[i]
  {
    match Validate(v)
    case Fail(e) => Returned(Fail(Invalid(e)), db, [])
    case Pass =>
      if v.id >= MaxAccounts then Returned(Fail(IdOutOfRange), db, [])
      else if v.id in db.held then Blocked([Lock(v.id)])
      else if IsValid(db.accounts[v.id]) then
        Returned(Fail(AlreadyExists), db, [Lock(v.id), Unlock(v.id)])
      else
        Returned(Pass, db.(accounts := db.accounts[v.id := v]), [Lock(v.id), Unlock(v.id)])
  }

  /** The correction changes only the two defective paths: for an in-range id
      with no leftover hold, both versions report the same result and leave
      the same slots; they differ only in whether the hold is released. */
  lemma CheckedAgreesWithAsWritten(db: DB, v: Account)
    requires Wf(db) && v.id < MaxAccounts && v.id !in db.held
    ensures AddUser(db, v).Returned? && AddUserChecked(db, v).Returned?
    ensures AddUser(db, v).value == AddUserChecked(db, v).value
    ensures AddUser(db, v).db.accounts == AddUserChecked(db, v).db.accounts
    ensures AddUser(db, v).value != Fail(AlreadyExists) ==> AddUser(db, v) == AddUserChecked(db, v)
  {
  }

  /** After a successful create, reading the same id returns the record,
      under a balanced shared hold. */
  lemma ReadAfterCreate(db: DB, v: Account)
    requires Wf(db) && db.held == {}
    requires AddUserChecked(db, v).Returned? && AddUserChecked(db, v).value == Pass
    ensures GetAccount(AddUserChecked(db, v).db, v.id) == Returned(v, AddUserChecked(db, v).db, [RLock(v.id), RUnlock(v.id)])
  {
  }

  /** A second create for an id that already holds a record fails with
      `AlreadyExists` and leaves the stored record as it was. */
  lemma SecondCreateFails(db: DB, v: Account, w: Account)
    requires Wf(db) && db.held == {}
    requires AddUserChecked(db, v).Returned? && AddUserChecked(db, v).value == Pass
    requires Validate(w).Pass? && w.id == v.id
    ensures var db' := AddUserChecked(db, v).db;
            && AddUserChecked(db', w) == Returned(Fail(AlreadyExists), db', [Lock(v.id), Unlock(v.id)])
            && GetAccount(db', v.id).value == v
  {
  }

  /** As written, the already-exists path leaves the exclusive hold taken,
      so the lock calls do not balance and the next read of that id waits
      forever. */
  lemma AlreadyExistsLeaksHold(db: DB, v: Account)
    requires Wf(db) && db.held == {}
    requires Validate(v).Pass? && v.id < MaxAccounts && IsValid(db.accounts[v.id])
    ensures AddUser(db, v).Returned?
    ensures AddUser(db, v).value == Fail(AlreadyExists)
    ensures !Balanced(AddUser(db, v).calls)
    ensures v.id in AddUser(db, v).db.held
    ensures GetAccount(AddUser(db, v).db, v.id).Blocked?
  {
  }

  /** An account that `Validate` accepts although its id is past the last slot. */
  const FarAccount: Account :=
    Account([], [], [], [], Male, 0, [], [], JoinedMin, StatusTaken, [], Premium(0, 0), [], MaxAccounts)

  /** As written, a valid account whose id is `MaxAccounts` reaches the
      unchecked slice index and panics, with its exclusive hold taken. */
  lemma ValidIdPastCapacityPanics()
    ensures Validate(FarAccount) == Pass
    ensures AddUser(New(), FarAccount) == Panicked([Lock(MaxAccounts)])
    ensures AddUserChecked(New(), FarAccount) == Returned(Fail(IdOutOfRange), New(), [])
  {
  }
}

=== FILE: traces.dfy ===
/** Sequences of store calls, run one after another against the corrected
    store. This is where the per-slot life cycle Empty -> Present (never
    reversed) and "exactly one create wins" are stated over whole histories;
    the interleavings of truly concurrent callers are modelled by the order
    of the calls in the sequence. */
module Traces {
  import opened Wrappers
  import opened Models
  import opened Db

  datatype Op = Get(id: Uint32) | Add(account: Account)
  datatype Reply = Got(account: Account) | Added(outcome: Outcome<AddError>)

  /** One call; `None` when it would wait forever on a hold. */
  function Step(db: DB, op: Op): (r: Option<(DB, Reply)>)
    requires Wf(db)
    ensures r.Some? ==> Wf(r.value.0) && r.value.0.held == db.held
    ensures db.held == {} ==> r.Some?
    ensures r.Some? ==>
              forall i :: 0 <= i < MaxAccounts && IsValid(db.accounts[i]) ==> r.value.0.accounts[i] == db.accounts[i]
  {
    match op
    case Get(id) =>
      (match GetAccount(db, id)
       case Returned(a, d, _) => Some((d, Got(a)))
       case _ => None)
    case Add(v) =>
      (match AddUserChecked(db, v)
       case Returned(o, d, _) => Some((d, Added(o)))
       case _ => None)
  }

  datatype Trace = Trace(db: DB, replies: seq<Reply>)

  /** Runs the calls in order; `None` when one of them would wait forever. */
  function Exec(db: DB, ops: seq<Op>): (r: Option<Trace>)
    requires Wf(db)
    ensures r.Some? ==> Wf(r.value.db) && |r.value.replies| == |ops|
    ensures db.held == {} ==> r.Some? && r.value.db.held == {}
    decreases |ops|
  {
    if ops == [] then Some(Trace(db, []))
    else match Step(db, ops[0])
      case None => None
      case Some((d, reply)) =>
        match Exec(d, ops[1..])
        case None => None
        case Some(t) => Some(Trace(t.db, [reply] + t.replies))
  }

  /** Call `j` is a create for id `k` that succeeded. */
  predicate Wins(ops: seq<Op>, replies: seq<Reply>, j: nat, k: int) {
    && j < |ops| && j < |replies|
    && ops[j].Add? && ops[j].account.id == k
    && replies[j] == Added(Pass)
  }

  /** Write-once: a present record survives any later history unchanged. */
  lemma {:induction false} WriteOnce(db: DB, ops: seq<Op>, i: nat)
    requires Wf(db) && i < MaxAccounts && IsValid(db.accounts[i])
    requires Exec(db, ops).Some?
    ensures Exec(db, ops).value.db.accounts[i] == db.accounts[i]
    decreases |ops|
  {
    if ops != [] {
      var (d, _) := Step(db, ops[0]).value;
      WriteOnce(d, ops[1..], i);
    }
  }

  /** Once id `k` is present, no later create for `k` succeeds. */
  lemma {:induction false} NoWinOnPresent(db: DB, ops: seq<Op>, k: nat, j: nat)
    requires Wf(db) && k < MaxAccounts && IsValid(db.accounts[k])
    requires Exec(db, ops).Some?
    ensures !Wins(ops, Exec(db, ops).value.replies, j, k)
    decreases |ops|
  {
    if ops != [] && j > 0 {
      var (d, _) := Step(db, ops[0]).value;
      NoWinOnPresent(d, ops[1..], k, j - 1);
    }
  }

  /** Of all the creates for one id in a history, at most one succeeds. */
  lemma {:induction false} AtMostOneWinner(db: DB, ops: seq<Op>, k: nat, i: nat, j: nat)
    requires Wf(db) && Exec(db, ops).Some?
    requires i < j
    ensures !(Wins(ops, Exec(db, ops).value.replies, i, k) && Wins(ops, Exec(db, ops).value.replies, j, k))
    decreases |ops|
  {
    if ops != [] {
      var (d, _) := Step(db, ops[0]).value;
      if i == 0 {
        if Wins(ops, Exec(db, ops).value.replies, 0, k) {
          NoWinOnPresent(d, ops[1..], k, j - 1);
        }
      } else {
        AtMostOneWinner(d, ops[1..], k, i - 1, j - 1);
      }
    }
  }

  /** The record stored at the end of a history is the winning create's input. */
  lemma {:induction false} WinnerIsStored(db: DB, ops: seq<Op>, i: nat, k: nat)
    requires Wf(db) && Exec(db, ops).Some?
    requires Wins(ops, Exec(db, ops).value.replies, i, k)
    ensures k < MaxAccounts
    ensures Exec(db, ops).value.db.accounts[k] == ops[i].account
    decreases |ops|
  {
    var (d, _) := Step(db, ops[0]).value;
    if i == 0 {
      WriteOnce(d, ops[1..], k);
    } else {
      WinnerIsStored(d, ops[1..], i - 1, k);
    }
  }

  /** Every read of id `k` issued after the winning create returns its input. */
  lemma {:induction false} ReadsSeeWinner(db: DB, ops: seq<Op>, i: nat, j: nat, k: nat)
    requires Wf(db) && Exec(db, ops).Some?
    requires Wins(ops, Exec(db, ops).value.replies, i, k)
    requires i < j < |ops| && ops[j] == Get(k)
    ensures Exec(db, ops).value.replies[j] == Got(ops[i].account)
    decreases |ops|
  {
    var (d, _) := Step(db, ops[0]).value;
    if i == 0 {
      ReadAfterPresent(d, ops[1..], j - 1, k);
    } else {
      ReadsSeeWinner(d, ops[1..], i - 1, j - 1, k);
    }
  }

  /** A read of a present id anywhere in a later history returns that record. */
  lemma {:induction false} ReadAfterPresent(db: DB, ops: seq<Op>, j: nat, k: nat)
    requires Wf(db) && k < MaxAccounts && IsValid(db.accounts[k])
    requires Exec(db, ops).Some?
    requires j < |ops| && ops[j] == Get(k)
    ensures Exec(db, ops).value.replies[j] == Got(db.accounts[k])
    decreases |ops|
  {
    var (d, _) := Step(db, ops[0]).value;
    if j > 0 {
      ReadAfterPresent(d, ops[1..], j - 1, k);
    }
  }

  /** A valid in-range create, run with no hold outstanding, either succeeds
      or reports `AlreadyExists`. */
  lemma {:induction false} ValidCreateReplies(db: DB, ops: seq<Op>, j: nat)
    requires Wf(db) && db.held == {}
    requires j < |ops| && ops[j].Add? && Validate(ops[j].account).Pass? && ops[j].account.id < MaxAccounts
    ensures Exec(db, ops).value.replies[j] in {Added(Pass), Added(Fail(AlreadyExists))}
    decreases |ops|
  {
    var (d, _) := Step(db, ops[0]).value;
    if j > 0 {
      ValidCreateReplies(d, ops[1..], j - 1);
    }
  }

  /** If id `k` starts absent and the history holds a valid create for it,
      some create for `k` at or before that one succeeds. */
  lemma {:induction false} SomeCreateWins(db: DB, ops: seq<Op>, j: nat, k: nat)
    requires Wf(db) && db.held == {} && k < MaxAccounts && !IsValid(db.accounts[k])
    requires j < |ops| && ops[j].Add? && ops[j].account.id == k && Validate(ops[j].account).Pass?
    ensures exists i :: 0 <= i <= j && Wins(ops, Exec(db, ops).value.replies, i, k)
    decreases |ops|
  {
    var t := Exec(db, ops).value;
    var (d, _) := Step(db, ops[0]).value;
    if !Wins(ops, t.replies, 0, k) {
      assert d.accounts[k] == db.accounts[k];
      SomeCreateWins(d, ops[1..], j - 1, k);
      var i :| 0 <= i <= j - 1 && Wins(ops[1..], Exec(d, ops[1..]).value.replies, i, k);
      assert Wins(ops, t.replies, i + 1, k);
    }
  }

  /** Every valid create for the winner's id other than the winner itself
      reports `AlreadyExists`. */
  lemma {:induction false} LosersGetAlreadyExists(db: DB, ops: seq<Op>, i: nat, j: nat, k: nat)
    requires Wf(db) && db.held == {}
    requires Wins(ops, Exec(db, ops).value.replies, i, k)
    requires j < |ops| && j != i && ops[j].Add? && ops[j].account.id == k && Validate(ops[j].account).Pass?
    ensures Exec(db, ops).value.replies[j] == Added(Fail(AlreadyExists))
  {
    WinnerIsStored(db, ops, i, k);
    ValidCreateReplies(db, ops, j);
    if i < j {
      AtMostOneWinner(db, ops, k, i, j);
    } else {
      AtMostOneWinner(db, ops, k, j, i);
    }
  }
}

=== FILE: wrappers.dfy ===
/** Small result types shared by the model. */
module Wrappers {

  /** A value that may be missing. */
  datatype Option<+T> = None | Some(value: T)

  /** The result of a Go function returning only `error`: `Pass` is a nil
      error, `Fail(e)` a non-nil one. */
  datatype Outcome<+E> = Pass | Fail(error: E)
}
